=== FILE: README.md ===
# Text-input prompt: a Dafny model of `Input::on`

This project models the text-input prompt of the `cliclack` terminal prompt
library. The prompt reads one decoded key event at a time. For each event it
updates its text buffer and its suggestion state, then tells the host whether
it is still active, was cancelled, has an error to show, or submits a value.

The model covers:

- `Input::on`, the per-event transition, as a pure function
  `TextInput.On(state, key, env)` that returns the next prompt and the
  reported `State`. The priority order is the source's: cycling keys, then
  Escape in editing, then the key dispatch, then the Enter auto-completion,
  leaving the preview, the default fallback, the interactive checks and the
  submission checks.
- The suggestion-source capability (`Completion`). It has two variants: a
  static candidate list filtered by the crate's string filter, and a
  handler callback.
- The index arithmetic of Tab / ArrowDown / ArrowUp cycling (`Navigation`).
- The builder functions, the placeholder and mode set-up done by `interact`,
  the `input()` gate, and the choices rendering makes (`Render`).
- The prompt's text buffer (`StringCursor`): a character sequence with an
  insertion point, supporting insert, delete-left, extend and clear.

Bodies that are not part of this model are parameters. The crate's
`filter_strings`, the target type's `FromStr` parser and the two validator
closures are treated this way. `Env<V>` carries the filter and the parser.
The validators are `string -> Outcome<string>` fields of the prompt, as they
are fields of the Rust struct.

The model follows the code in three places where a reader might expect
otherwise:

- One might expect a highlighted suggestion always to be a valid position in
  the current suggestion list. The code keeps this only while no cycling key
  is pressed with both the buffer and the pinned query empty ("blind
  cycling"): in that case the pinned query stays empty, and the next key
  filters on the suggestion now in the buffer. `OnKeepsIndexCoherent` and
  `BlindCyclingBreaksIndexCoherence` state both sides.
- Escape outside multiline editing is not special: it falls through to the
  catch-all arm, so Escape in the preview returns to editing
  (`ModeAfterEvent`).
- Without a suggestion source, Tab and the arrows are ordinary keys: they
  leave the preview and run the interactive checks
  (`CyclingWithoutSourceFallsThrough`).

## Model

| member | source | states |
|---|---|---|
| StringCursor.Insert | src/input.rs:323-324 | the character lands at the insertion point: the text before it is kept, the text after it moves one place right, and the point moves past it |
| StringCursor.DeleteLeft | src/input.rs:326 | does nothing at the start; otherwise the insertion point moves back one and re-inserting the character just before it restores the buffer, so exactly that character was removed |
| StringCursor.Extend | src/input.rs:252-255 | `s` is placed whole between the text before and after the insertion point, and the point ends just after it |
| StringCursor.Clear | src/input.rs:253 | leaves an empty buffer with the point at the start |
| StringCursor.InsertThenDeleteLeft | src/input.rs:323-326 | deleting left right after an insertion restores the buffer exactly |
| StringCursor.ClearThenExtend | src/input.rs:280-281 | replacing the buffer by a suggestion leaves exactly that suggestion, so reading the buffer back returns it unchanged |
| Completion.GetSuggestions | src/autocomplete.rs:12-28 | the list variant never fails and answers with the filtered candidates; the callback gets the query unchanged and its success or failure is returned unchanged |
| Completion.StaticListIsFilteringCallback | src/autocomplete.rs:12-28 | a static list answers exactly as a callback filtering the same candidates would |
| Completion.CompletionInventsNothing | src/autocomplete.rs:17-32 | with nothing highlighted there is no completion |
| Navigation.NextIndex | src/input.rs:241-304 | a highlight is always a position inside the list; from no highlight, Tab and Down start at position 0 and Up at the last position; a stale Up position at or past the end wraps to the last position (the corrected step, see Findings); Down and Up never drop the highlight; Tab drops it exactly when the previous position was the last or beyond |
| Navigation.UpIndexAsWritten | src/input.rs:295-304 | the source's Up step lands inside the list exactly when the previous position was at most the list length |
| Navigation.UpAsWrittenAgreesInRange | src/input.rs:295-304 | wherever the source's Up step stays in range, the corrected step gives the same position |
| Navigation.UpAsWrittenLeavesRange | src/input.rs:295-309 | a position left over from a longer list gives the source's Up step an index past the end of a one-element list |
| Navigation.DownIsSuccessorModLen | src/input.rs:268-277 | Down moves one position forward round the circle of positions |
| Navigation.UpIsPredecessorModLen | src/input.rs:295-304 | Up moves one position backward round the circle of positions |
| Navigation.DownUpInverse | src/input.rs:268-304 | Up undoes Down and Down undoes Up on every valid position |
| Navigation.TabVisitsInOrder | src/input.rs:241-250 | from no highlight, Tab visits every position in order, and the press after the last drops the highlight |
| TextInput.New | src/input.rs:75-81 | a new prompt requires input, is single-line, and starts with empty buffers, no suggestion state and nothing else configured |
| TextInput.WithPlaceholder | src/input.rs:84-87 | only the placeholder changes: the text is appended at its end and the insertion point stays at the end, so a later `interact` still sees whether a placeholder was given |
| TextInput.Interact | src/input.rs:154-163 | with no placeholder and a default, the placeholder shows the default plus " (default)" and editing becomes the preview; no other field changes, and without a default or with a placeholder nothing changes |
| TextInput.FilteredSuggestions | src/input.rs:196-205 | no source or a failing source gives no suggestions; otherwise the source's list is used unchanged |
| TextInput.On | src/input.rs:219-382 | the configuration and the buffer invariant are kept; `Cancel` is reported exactly for Escape in editing; `Submit(v)` only for Enter outside editing, with `v` the parse of the final text |
| InputProperties.PlainSubmitKeepsTypedText | src/input.rs:316-320 | Enter outside editing, with text typed and nothing to fill in, keeps the buffer and suggestion state, only leaves the preview, and reports the checks on the typed text with submission requested |
| InputProperties.CatchAllOnlyLeavesPreview | src/input.rs:335-360 | an unmatched key, Escape outside editing, an ASCII control character, or a cycling key with no source changes nothing but leaving the preview, and reports the interactive checks on the unchanged text |
| InputProperties.RequiredDecidesEmptySubmit | src/input.rs:101-104 | outside multiline editing, with nothing to fill in on Enter and no validators, an empty submission with no default is refused as "Input required" when required, and handed to the parser as empty text when optional |
| InputProperties.DefaultInputFillsEmptySubmit | src/input.rs:93-96 | after setting a default, an empty submission outside multiline editing with nothing to fill in on Enter takes the default as its text |
| InputProperties.MultilineMakesEnterBreakLine | src/input.rs:110-113 | after turning multiline on, Enter inserts a line break at the point and never submits; a new single-line prompt treats Enter as a submission, refused while empty |
| InputProperties.ValidateRejectsOnSubmitOnly | src/input.rs:117-135 | on a prompt outside multiline editing with text typed, nothing to fill in on Enter and no interactive validator, the on-submit validator's rejection of the text is what Enter reports; a catch-all key reports the same as without the validator |
| InputProperties.ValidateInteractivelyRejectsAnyEvent | src/input.rs:138-147 | the interactive validator's rejection is reported even on a key that changes nothing |
| InputProperties.AutocompleteOffersFilteredCandidates | src/input.rs:171-174 | a static list offers exactly the filtered candidates for the filter query, and when some match, the first Tab from no highlight puts the first of them into the buffer |
| InputProperties.AutocompleteWithCyclesHandlerList | src/input.rs:179-185 | when the handler answers the filter query with a non-empty list, ArrowDown from no highlight puts its first entry into the buffer |
| InputProperties.AutocompleteOnEnterFillsFirst | src/input.rs:191-194 | with the flag on, Enter with nothing highlighted and some suggestion for the live buffer fills in the first suggestion, or the default when that suggestion is empty; with the flag off, a submission of typed text keeps the buffer |
| InputProperties.FailingSourceAbsorbsCycling | src/input.rs:196-205 | with a handler failing on every query, a cycling key changes nothing and reports `Active` |
| InputProperties.FailingSourceActsAsNone | src/input.rs:196-205 | with a handler failing on every query, every other key gives exactly the transition it gives with no source |
| InputProperties.CompletionOfHighlightIsBuffer | src/autocomplete.rs:17-32 | after cycling highlights a suggestion, the completion of that highlight is exactly the text in the buffer |
| InputProperties.CyclingWithoutSuggestionsIsAbsorbed | src/input.rs:231-235 | a cycling key with no suggestions changes nothing and reports `Active` |
| InputProperties.CyclingMovesHighlight | src/input.rs:223-257 | a cycling key reports `Active`, keeps the mode, and pins the query that was filtered on; the highlight lands inside the list and its suggestion becomes the buffer; Tab's drop of the highlight leaves the buffer alone |
| InputProperties.CyclingWithoutSourceFallsThrough | src/input.rs:231 | without a source, a cycling key behaves exactly like an unhandled key |
| InputProperties.BlindCyclingLeavesQueryUnpinned | src/input.rs:237-239 | cycling that finds suggestions from an empty buffer with no pinned query leaves the query unpinned, so the next key filters on the highlighted suggestion |
| InputProperties.EditOutsidePreviewClearsCompletion | src/input.rs:327-334 | a printable character or Backspace outside the preview clears the highlight and the pinned query, leaves the buffer and the mode alone, and reports the interactive checks on the text with no submission (`Active` without an interactive validator) |
| InputProperties.EditInPreview | src/input.rs:323-326 | in the preview the character is inserted, or Backspace deletes left; the suggestion state is kept, the mode becomes editing, and the interactive checks on the new text are reported with no submission |
| InputProperties.CharHasOneEditor | src/input.rs:212-217 | a printable character is entered by the host's line editor exactly when `On` leaves the buffer unchanged |
| InputProperties.ModeAfterEvent | src/input.rs:312-348 | disabled stays disabled; cycling keeps the mode; Escape in editing enters the preview; every other event ends in editing |
| InputProperties.EscapeEntersPreview | src/input.rs:312-315 | Escape in editing enters the preview, changes nothing else, and reports `Cancel` |
| InputProperties.EnterInEditingBreaksLine | src/input.rs:316-318 | Enter in editing inserts a line break, stays in editing, and reports only the interactive checks on the new text, never a submission |
| InputProperties.SubmitFillsFirstSuggestion | src/input.rs:338-355 | with auto-completion on Enter enabled, a submission with nothing highlighted and some suggestion for the live buffer takes the first suggestion as its text and runs the checks on it; an empty first suggestion erases the typed text, so the default takes its place or a required prompt with no default reports "Input required" |
| InputProperties.EmptySubmitRequired | src/input.rs:350-355 | outside multiline editing, with nothing to fill in on Enter, an empty submission with no default to a required prompt reports "Input required" |
| InputProperties.EmptySubmitUsesDefault | src/input.rs:350-352 | outside multiline editing, with nothing to fill in on Enter, an empty submission with a default takes the default as its text; without validators it submits the parsed default or reports "Invalid value format" |
| InputProperties.EmptySubmitOptional | src/input.rs:350-356 | outside multiline editing, with nothing to fill in on Enter and no validators, an empty submission to an optional prompt with no default hands the empty text to the parser |
| InputProperties.VerdictOrder | src/input.rs:358-379 | the interactive validator runs first and the text must parse, submission or not; then the on-submit validator; a value is submitted exactly when every check passes |
| InputProperties.EventsEndInVerdict | src/input.rs:316-379 | every event other than cycling and Escape in editing reports "Input required" exactly when it is Enter outside editing on a required prompt with no default and the final buffer is empty; every other such event reports the checks on the final text, with submission requested exactly for Enter outside editing |
| InputProperties.InteractiveValidatorRunsWithoutSubmit | src/input.rs:358-361 | a key that is not Enter, not a cycling key while a source is configured (input.rs:256 returns `Active` before any check), and not Escape in editing (input.rs:314 returns `Cancel`) never submits, and an interactive rejection of the resulting text is reported at once |
| InputProperties.OnKeepsIndexCoherent | src/input.rs:237-255 | every event except blind cycling keeps the highlight a valid position in the suggestions for a non-empty pinned query |
| InputProperties.BlindCyclingBreaksIndexCoherence | src/input.rs:237-255 | blind cycling leaves a highlight with no pinned query |
| InputProperties.UpAsWrittenSafeWhenCoherent | src/input.rs:295-309 | while the highlight is coherent and the filter query has suggestions, the source's Up step stays in range |
| InputProperties.InteractIsIdempotent | src/input.rs:154-163 | running the set-up twice is the same as running it once |
| InputProperties.DefaultStartsInPreview | src/input.rs:154-163 | a multiline prompt with a default and no placeholder starts in the preview, showing the default |
| InputProperties.ExplicitPlaceholderSuppressesDefault | src/input.rs:154-163 | a non-empty placeholder keeps its text and the prompt stays in editing |
| Session.Run | src/input.rs:219-382 | any run of events keeps the buffer invariant and the configuration |
| Session.DisabledIsPermanent | src/input.rs:312-348 | a run ends disabled exactly when it started disabled |
| Session.RunKeepsIndexCoherent | src/input.rs:237-255 | without blind cycling, the highlight stays coherent across any run |
| Session.TabKeepsQuery | src/input.rs:224-255 | a Tab with a non-empty filter query that has suggestions keeps that query and its suggestion list |
| Session.TabsFollowIndexArithmetic | src/input.rs:231-257 | with a non-empty filter query that has suggestions, k Tabs move the highlight as k steps of the index arithmetic do, over one fixed list |
| Session.TabCycle | src/input.rs:231-257 | from no highlight, with a non-empty filter query (so not blind cycling) and n > 0 suggestions for it, Tabs 1 to n put suggestions 0 to n-1 into the buffer; Tab n+1 drops the highlight and the last suggestion stays |
| Scenarios.RustRubyTabCycle | src/input.rs:231-257 | with "r" typed and rust and ruby matching, three Tabs give rust, ruby, then no highlight with ruby kept |
| Scenarios.UpPastShrunkenList | src/input.rs:285-311 | a callback source reaches the source's out-of-range Up step; the corrected step wraps to position 0 |
| Scenarios.EscapeThenType | src/input.rs:312-348 | Escape then a character: preview with `Cancel`, then the character is inserted and editing resumes |
| Scenarios.SpaceRejectedWhileTyping | src/input.rs:358-361 | a space rejected by the interactive validator is reported on the space's own event |
| Scenarios.EmptySuggestionErasesTypedText | src/input.rs:338-355 | with auto-completion on Enter and a handler suggesting only the empty text, Enter on "abc" empties the buffer and the required prompt reports "Input required" |
| Scenarios.PrefilledSubmitsDefault | src/input.rs:350-379 | a prefilled multiline prompt starts in the preview, and Enter submits the parsed default |
| Render.Plan | src/input.rs:384-441 | the placeholder is shown exactly when the buffer is empty; suggestions are listed exactly while `Active` with a non-empty list, each marked highlighted exactly at the highlighted position; the footer is the mode hint with no suggestions, else the suggestion footer or nothing |
| Render.AtMostOneHighlighted | src/input.rs:400-405 | at most one listed suggestion is highlighted |
| Render.CyclingShowsHighlightInBuffer | src/input.rs:387-405 | with a non-empty filter query (not blind cycling), after a cycling key highlights a suggestion, the next render highlights exactly the suggestion in the buffer |

## Findings

| source | as written | input that shows it | evidently intended | confidence | as-written member | corrected member |
|---|---|---|---|---|---|---|
| src/input.rs:295-309 | ArrowUp computes `idx - 1` with no check against the current list, then indexes the list with it | a callback giving `["a","b","c","d"]` for the empty query and `[q]` for any other query `q`; on an empty prompt, press ArrowUp twice: the highlight is 3, the second key filters on `"d"` (one suggestion) and indexes position 2 | a position outside the current list wraps to the last suggestion, as Tab and Down already treat it with their `>=` test | medium, not executed | Navigation.UpIndexAsWritten | Navigation.NextIndex |

`Navigation.UpAsWrittenLeavesRange` and `Scenarios.UpPastShrunkenList` show
the out-of-range step. `Navigation.UpAsWrittenAgreesInRange` shows that the
corrected step agrees with the source wherever the source stays in range.
`TextInput.On` uses the corrected step.

## Left out

- The Rust panic on an out-of-range index is not modelled: `TextInput.On` uses the corrected ArrowUp step (see Findings).
- `StringCursor`: src/prompt/cursor.rs is not part of this model. The buffer inserts at the insertion point. Word-wise moves and the other cursor motions belong to the host's line editor and are left out.
- StringCursor.Extend: extend is read as inserting at the insertion point and leaving the point after the inserted text. In `on` it is applied only to an empty or just-cleared buffer, where every reading gives the same text, but the point matters afterwards: after Tab puts "rust" into the buffer in the preview, Char 'x' gives "rustx" only under this reading. `TextInput.WithPlaceholder` relies on the placeholder's point staying at its end (part of `TextInput.Input.Valid`), so appending to it is the same under every reading.
- The host inserts a typed character into the buffer through its own line editor before `on` runs; `on` then sees the new text. `Scenarios.SpaceRejectedWhileTyping` starts from the buffer the host has already edited.
- A suggestion callback is a pure function here: rendering calls it again (src/input.rs:393) and is assumed to get the same list that `on` saw. `Session.RunKeepsIndexCoherent` and `Render.CyclingShowsHighlightInBuffer` depend on this.
- The builders `TextInput.DefaultInput`, `TextInput.Required`, `TextInput.Multiline`, `TextInput.Validate`, `TextInput.ValidateInteractively`, `TextInput.Autocomplete`, `TextInput.AutocompleteWith` and `TextInput.AutocompleteOnEnter` state only which field they set; their effect is stated by the `InputProperties` lemmas about events on the configured prompt.
- Styling: the global theme, the formatter calls and the header decoration are external. `Render.Plan` models only the choices of text, footer and listed items.
- The `interact` read loop, `io::Result` and key decoding are left out. Keys are a small datatype; `Other` stands for every key that `on` does not match.
- `Session.Run` feeds every key whatever the previous event reported. When the host stops reading is not part of this model.
- The bodies of `filter_strings`, `FromStr::parse` and the validator closures are parameters, so every property holds for every filter, parser and validator.
- The host's own editing through `input()` is left out: the model states only when it is allowed (`TextInput.FrameworkMayEdit`, related to `on` by `InputProperties.CharHasOneEditor`).
- `get_completion` is modelled but never called by `on`, as in the source.
- `Send`, boxing and closure ownership are Rust plumbing with no behaviour to model.
- examples/autocomplete.rs is terminal I/O. Its language list only inspired the candidates in `Scenarios.RustRubyTabCycle`.

=== FILE: completion.dfy ===
/** The suggestion source a prompt may query: a fixed candidate list, filtered
    by the crate's string filter, or a caller-supplied handler. */
module Completion {
  import opened Wrappers

  /** The candidate list for a query, or the reason none could be produced. */
  type SuggestionResult = Result<seq<string>, string>

  /** The crate's `filter_strings(query, candidates)`; its body is not part of
      this model, so every use takes it as a parameter. */
  type Filter = (string, seq<string>) -> seq<string>

  /** The two implementations of the suggestion capability. */
  datatype Source =
    | StaticList(candidates: seq<string>)
    | Callback(handler: string -> SuggestionResult)

  /** The suggestions for `query`. The static list never fails and answers
      with the filtered candidates; the handler is passed the query unchanged
      and its answer, success or failure, is returned unchanged. */
  function GetSuggestions(src: Source, filter: Filter, query: string): (r: SuggestionResult)
    ensures src.StaticList? ==> r.Success? && r.value == filter(query, src.candidates)
    ensures src.Callback? ==> r == src.handler(query)
  {
    match src
    case StaticList(candidates) => Success(filter(query, candidates))
    case Callback(handler) => handler(query)
  }

  /** The string to accept for a highlighted suggestion: both implementations
      hand back the highlighted value itself and ignore the typed input. */
  function GetCompletion(src: Source, input: string, highlighted: Option<string>): (r: Option<string>)
    ensures r == highlighted
  {
    highlighted
  }

  /** A static list answers exactly as a handler that filters the same
      candidates would: the list is the special case of the callback. */
  lemma StaticListIsFilteringCallback(candidates: seq<string>, filter: Filter, query: string)
    ensures GetSuggestions(StaticList(candidates), filter, query)
         == GetSuggestions(Callback(q => Success(filter(q, candidates))), filter, query)
  {
  }

  /** Nothing is invented when nothing is highlighted, whatever was typed. */
  lemma CompletionInventsNothing(src: Source, input: string)
    ensures GetCompletion(src, input, None).None?
  {
  }
}

=== FILE: cursor.dfy ===
/** The prompt's editable text: a character sequence with an insertion point.

    The buffer offers four edits: insert one character at the insertion point,
    delete the character to its left, extend with a whole string (one insertion
    per character) and clear. None of them can fail. */
module StringCursor {

  /** `text` is the content, `pos` the insertion point, counted in characters
      from the start. */
  datatype Cursor = Cursor(text: seq<char>, pos: nat) {

    /** The insertion point lies between two characters or at either end. */
    predicate Valid() {
      pos <= |text|
    }

    predicate IsEmpty() {
      |text| == 0
    }
  }

  /** A fresh buffer: no text, insertion point at the start. */
  const Empty: Cursor := Cursor([], 0)

  /** Inserts `c` at the insertion point; the point moves past it. */
  function Insert(b: Cursor, c: char): (r: Cursor)
    requires b.Valid()
    ensures r.Valid()
    ensures |r.text| == |b.text| + 1 && r.pos == b.pos + 1
    ensures r.text[b.pos] == c
    ensures r.text[..b.pos] == b.text[..b.pos]
    ensures r.text[b.pos + 1..] == b.text[b.pos..]
  {
    Cursor(b.text[..b.pos] + [c] + b.text[b.pos..], b.pos + 1)
  }

  /** Removes the character just left of the insertion point; does nothing
      at the start of the buffer. Inserting the removed character again
      restores the buffer. */
  function DeleteLeft(b: Cursor): (r: Cursor)
    requires b.Valid()
    ensures r.Valid()
    ensures b.pos == 0 ==> r == b
    ensures b.pos > 0 ==> r.pos == b.pos - 1 && Insert(r, b.text[b.pos - 1]) == b
  {
    if b.pos == 0 then b
    else
      var r := Cursor(b.text[..b.pos - 1] + b.text[b.pos..], b.pos - 1);
      assert Insert(r, b.text[b.pos - 1]).text == b.text by {
        assert r.text[..r.pos] == b.text[..b.pos - 1];
        assert r.text[r.pos..] == b.text[b.pos..];
        assert b.text[..b.pos - 1] + [b.text[b.pos - 1]] == b.text[..b.pos];
        assert b.text[..b.pos] + b.text[b.pos..] == b.text;
      }
      r
  }

  /** Inserts the characters of `s` one after another at the insertion point:
      `s` ends up between the text before and after the point, and the point
      ends up just after `s`. */
  function Extend(b: Cursor, s: seq<char>): (r: Cursor)
    requires b.Valid()
    ensures r.Valid()
    ensures r.pos == b.pos + |s|
    ensures r.text == b.text[..b.pos] + s + b.text[b.pos..]
    decreases |s|
  {
    if |s| == 0 then b
    else
      var next := Insert(b, s[0]);
      var r := Extend(next, s[1..]);
      assert next.text[..next.pos] == b.text[..b.pos] + [s[0]];
      assert [s[0]] + s[1..] == s;
      r
  }

  /** Empties the buffer. */
  function Clear(b: Cursor): (r: Cursor)
    ensures r.Valid() && r.IsEmpty() && r.pos == 0
  {
    Empty
  }

  /** Deleting to the left right after an insertion restores the buffer. */
  lemma InsertThenDeleteLeft(b: Cursor, c: char)
    requires b.Valid()
    ensures DeleteLeft(Insert(b, c)) == b
  {
    var r := DeleteLeft(Insert(b, c));
    assert r.text == b.text[..b.pos] + b.text[b.pos..];
    assert b.text[..b.pos] + b.text[b.pos..] == b.text;
  }

  /** Replacing the content by `s` (clear, then extend) leaves exactly `s`
      in the buffer with the insertion point at its end; reading the buffer
      back therefore yields `s` unchanged. */
  lemma ClearThenExtend(b: Cursor, s: seq<char>)
    ensures Extend(Clear(b), s) == Cursor(s, |s|)
  {
  }
}

=== FILE: input.dfy ===
/** The text-input prompt: its configuration and live state, the builder
    functions that configure it, the set-up done when the interaction starts,
    and `On`, the transition taken on every key event. */
module TextInput {
  import opened Wrappers
  import opened StringCursor
  import opened Completion
  import Navigation

  /** Multiline editing: off, showing the text for review, or editing it. */
  datatype Mode = Disabled | Preview | Editing

  /** A validation hook: accepts the text or rejects it with a reason. */
  type Validator = string -> Outcome<string>

  /** The prompt. `autocompletionIndex` is the highlighted suggestion and
      `autocompletionQuery` the pinned query, empty while no cycling is in
      progress. */
  datatype Input = Input(
    prompt: string,
    input: Cursor,
    inputRequired: bool,
    defaultValue: Option<string>,
    placeholder: Cursor,
    multiline: Mode,
    validateOnEnter: Option<Validator>,
    validateInteractively: Option<Validator>,
    autocompleter: Option<Source>,
    autocompletionIndex: Option<nat>,
    autocompletionQuery: string,
    autocompleteOnEnter: bool)
  {
    /** Both text buffers keep their insertion point inside the text; the
        placeholder is only ever appended to, so its point is at its end. */
    predicate Valid() {
      input.Valid() && placeholder.Valid() && placeholder.pos == |placeholder.text|
    }
  }

  /** The decoded key events the prompt distinguishes; `Other` stands for
      every remaining key (arrows left and right, Home, Delete, ...). */
  datatype Key = Char(ch: char) | Enter | Escape | Backspace | Tab | ArrowUp | ArrowDown | Other

  /** What one event tells the host. `Cancel` is also returned, as a one-event
      quirk, when Escape leaves multiline editing for the preview. */
  datatype State<V> = Active | Cancel | Error(message: string) | Submit(value: V)

  /** The collaborators whose bodies are not part of this model: the crate's
      string filter and the target type's parser (`None` is a parse error). */
  datatype Env<V> = Env(filter: Filter, parse: string -> Option<V>)

  /** The prompt after an event, with what the event tells the host. */
  datatype Transition<V> = Transition(next: Input, state: State<V>)

  const InputRequired: string := "Input required"
  const InvalidFormat: string := "Invalid value format"
  const DefaultSuffix: string := " (default)"

  /** Everything a key event never touches: the configuration. */
  ghost predicate SameConfig(a: Input, b: Input) {
    && a.prompt == b.prompt
    && a.inputRequired == b.inputRequired
    && a.defaultValue == b.defaultValue
    && a.placeholder == b.placeholder
    && a.validateOnEnter == b.validateOnEnter
    && a.validateInteractively == b.validateInteractively
    && a.autocompleter == b.autocompleter
    && a.autocompleteOnEnter == b.autocompleteOnEnter
  }

  // ---------------------------------------------------------------------
  // Builders

  /** A new prompt: input required, single-line, nothing else configured. */
  function New(prompt: string): (r: Input)
    ensures r.Valid() && r.prompt == prompt
    ensures r.inputRequired && r.multiline == Disabled
    ensures r.input.IsEmpty() && r.placeholder.IsEmpty() && r.defaultValue.None?
    ensures r.autocompleter.None? && r.autocompletionIndex.None? && r.autocompletionQuery == []
    ensures r.validateOnEnter.None? && r.validateInteractively.None? && !r.autocompleteOnEnter
  {
    Input(prompt, Empty, true, None, Empty, Disabled, None, None, None, None, [], false)
  }

  /** Appends `text` to the placeholder. */
  function WithPlaceholder(s: Input, text: string): (r: Input)
    requires s.Valid()
    ensures r.Valid() && r == s.(placeholder := r.placeholder)
    ensures r.placeholder.text == s.placeholder.text + text
  {
    s.(placeholder := Extend(s.placeholder, text))
  }

  /** Sets the default value used when nothing was typed. */
  function DefaultInput(s: Input, value: string): (r: Input)
    ensures r == s.(defaultValue := Some(value))
  {
    s.(defaultValue := Some(value))
  }

  /** Sets whether an empty submission is refused. */
  function Required(s: Input, required: bool): (r: Input)
    ensures r == s.(inputRequired := required)
  {
    s.(inputRequired := required)
  }

  /** Turns on multiline editing. */
  function Multiline(s: Input): (r: Input)
    ensures r == s.(multiline := Editing)
  {
    s.(multiline := Editing)
  }

  /** Sets the validator run on submission (`validate` and `validate_on_enter`). */
  function Validate(s: Input, v: Validator): (r: Input)
    ensures r == s.(validateOnEnter := Some(v))
  {
    s.(validateOnEnter := Some(v))
  }

  /** Sets the validator run on every event. */
  function ValidateInteractively(s: Input, v: Validator): (r: Input)
    ensures r == s.(validateInteractively := Some(v))
  {
    s.(validateInteractively := Some(v))
  }

  /** Uses a fixed candidate list for suggestions. */
  function Autocomplete(s: Input, suggestions: seq<string>): (r: Input)
    ensures r == s.(autocompleter := Some(StaticList(suggestions)))
  {
    s.(autocompleter := Some(StaticList(suggestions)))
  }

  /** Uses a handler for suggestions. */
  function AutocompleteWith(s: Input, handler: string -> SuggestionResult): (r: Input)
    ensures r == s.(autocompleter := Some(Callback(handler)))
  {
    s.(autocompleter := Some(Callback(handler)))
  }

  /** Fills in the first suggestion on submission when none is highlighted. */
  function AutocompleteOnEnter(s: Input): (r: Input)
    ensures r == s.(autocompleteOnEnter := true)
  {
    s.(autocompleteOnEnter := true)
  }

  // ---------------------------------------------------------------------
  // Interaction set-up

  /** The empty placeholder extended by the default and its marker. */
  function DefaultPlaceholder(empty: Cursor, d: string): (c: Cursor)
    requires empty.Valid() && empty.IsEmpty()
    ensures c.text == d + DefaultSuffix && c.pos == |c.text|
  {
    var first := Extend(empty, d);
    assert first.text[..first.pos] == d && first.text[first.pos..] == [];
    Extend(first, DefaultSuffix)
  }

  /** The set-up done when the interaction starts: with no placeholder and a
      default value, the placeholder shows the default marked " (default)",
      and multiline editing starts in the preview so that the default can be
      submitted at once. An explicit placeholder suppresses both. */
  function Interact(s: Input): (r: Input)
    requires s.Valid()
    ensures r.Valid()
    ensures s.placeholder.IsEmpty() && s.defaultValue.Some? ==>
      && r.placeholder.text == s.defaultValue.value + DefaultSuffix
      && r.multiline == (if s.multiline == Editing then Preview else s.multiline)
    ensures !(s.placeholder.IsEmpty() && s.defaultValue.Some?) ==> r == s
    ensures && r.prompt == s.prompt && r.input == s.input && r.inputRequired == s.inputRequired
            && r.defaultValue == s.defaultValue
            && r.validateOnEnter == s.validateOnEnter && r.validateInteractively == s.validateInteractively
            && r.autocompleter == s.autocompleter && r.autocompletionIndex == s.autocompletionIndex
            && r.autocompletionQuery == s.autocompletionQuery && r.autocompleteOnEnter == s.autocompleteOnEnter
  {
    if s.placeholder.IsEmpty() && s.defaultValue.Some? then
      var mode := if s.multiline == Editing then Preview else s.multiline;
      s.(placeholder := DefaultPlaceholder(s.placeholder, s.defaultValue.value), multiline := mode)
    else
      s
  }

  /** Whether the host's line editor may edit the buffer: not in the preview,
      where `On` edits it itself. */
  function FrameworkMayEdit(s: Input): (r: bool)
    ensures r <==> s.multiline != Preview
  {
    s.multiline != Preview
  }

  // ---------------------------------------------------------------------
  // Suggestions

  /** The suggestions for `query`; no source, or a source that fails, gives
      none, so a broken source never blocks typing. */
  function FilteredSuggestions(completer: Option<Source>, filter: Filter, query: string): (r: seq<string>)
    ensures completer.None? ==> r == []
    ensures completer.Some? && GetSuggestions(completer.value, filter, query).Failure? ==> r == []
    ensures completer.Some? && GetSuggestions(completer.value, filter, query).Success? ==>
      r == GetSuggestions(completer.value, filter, query).value
  {
    match completer
    case None => []
    case Some(src) =>
      match GetSuggestions(src, filter, query)
      case Success(suggestions) => suggestions
      case Failure(_) => []
  }

  /** The query suggestions are filtered on: the pinned query while cycling,
      the live buffer otherwise. */
  function FilterQuery(s: Input): string {
    if |s.autocompletionQuery| == 0 then s.input.text else s.autocompletionQuery
  }

  /** The cycling direction of a key, if it is one of the cycling keys. */
  function NavDirection(key: Key): Option<Navigation.Direction> {
    match key
    case Tab => Some(Navigation.Tab)
    case ArrowDown => Some(Navigation.Down)
    case ArrowUp => Some(Navigation.Up)
    case _ => None
  }

  /** A cycling key handled by the suggestion source: with no suggestions for
      the filter query nothing changes; otherwise the query is pinned (if it
      was not yet), the highlight moves, and a highlighted suggestion replaces
      the buffer. */
  function Navigate(s: Input, dir: Navigation.Direction, filter: Filter): (r: Input)
    requires s.Valid()
    ensures r.Valid() && SameConfig(s, r) && r.multiline == s.multiline
  {
    var suggestions := FilteredSuggestions(s.autocompleter, filter, FilterQuery(s));
    if |suggestions| == 0 then s
    else
      var pinned := FilterQuery(s);
      var idx := Navigation.NextIndex(dir, s.autocompletionIndex, |suggestions|);
      var r := s.(autocompletionQuery := pinned, autocompletionIndex := idx);
      if idx.Some? then r.(input := Extend(Clear(s.input), suggestions[idx.value])) else r
  }

  // ---------------------------------------------------------------------
  // The transition

  /** ASCII control characters (U+0000 to U+001F and U+007F). */
  predicate IsAsciiControl(c: char) {
    (c as int) < 32 || (c as int) == 127
  }

  /** The mode once an event has passed the dispatch: the preview becomes
      editing. */
  function LeavePreview(s: Input): (r: Input)
    ensures r.multiline != Preview && (s.multiline != Preview ==> r == s)
  {
    if s.multiline == Preview then s.(multiline := Editing) else s
  }

  /** Forgets the highlighted suggestion and the pinned query. */
  function ClearCompletion(s: Input): Input {
    s.(autocompletionIndex := None, autocompletionQuery := [])
  }

  /** The key dispatch after cycling and Escape-in-editing: the updated prompt
      and whether submission was requested. */
  function Route(s: Input, key: Key): (r: (Input, bool))
    requires s.Valid()
    ensures r.0.Valid() && SameConfig(s, r.0) && r.0.multiline == s.multiline
  {
    match key
    case Enter =>
      if s.multiline == Editing then (s.(input := Insert(s.input, '\n')), false)
      else (s, true)
    case Char(c) =>
      if IsAsciiControl(c) then (s, false)
      else if s.multiline == Preview then (s.(input := Insert(s.input, c)), false)
      else (ClearCompletion(s), false)
    case Backspace =>
      if s.multiline == Preview then (s.(input := DeleteLeft(s.input)), false)
      else (ClearCompletion(s), false)
    case _ => (s, false)
  }

  /** On a submission with nothing highlighted, the first suggestion for the
      live buffer (if any) replaces the buffer. */
  function FillFirstSuggestion(s: Input, filter: Filter): (r: Input)
    requires s.Valid()
    ensures r.Valid() && r == s.(input := r.input)
  {
    var suggestions := FilteredSuggestions(s.autocompleter, filter, s.input.text);
    if |suggestions| == 0 then s else s.(input := Extend(Clear(s.input), suggestions[0]))
  }

  /** The validation and submission stage for the final buffer text. */
  function Verdict<V>(s: Input, submit: bool, env: Env<V>): (state: State<V>)
    ensures state.Submit? ==> submit && env.parse(s.input.text) == Some(state.value)
    ensures state.Cancel? == false
  {
    var text := s.input.text;
    if s.validateInteractively.Some? && s.validateInteractively.value(text).Fail? then
      Error(s.validateInteractively.value(text).error)
    else if s.validateInteractively.Some? && env.parse(text).None? then
      Error(InvalidFormat)
    else if !submit then
      Active
    else if s.validateOnEnter.Some? && s.validateOnEnter.value(text).Fail? then
      Error(s.validateOnEnter.value(text).error)
    else
      match env.parse(text)
      case Some(v) => Submit(v)
      case None => Error(InvalidFormat)
  }

  /** The common tail of every event that is not a cycling key or Escape in
      editing: fill in the first suggestion, leave the preview, fall back to
      the default, then validate and submit. */
  function Conclude<V>(s: Input, submit: bool, env: Env<V>): (t: Transition<V>)
    requires s.Valid()
    ensures t.next.Valid() && SameConfig(s, t.next)
    ensures t.next.autocompletionIndex == s.autocompletionIndex
    ensures t.next.autocompletionQuery == s.autocompletionQuery
    ensures t.next.multiline == (if s.multiline == Preview then Editing else s.multiline)
    ensures !t.state.Cancel?
  {
    var s1 := if submit && s.autocompleteOnEnter && s.autocompletionIndex.None?
              then FillFirstSuggestion(s, env.filter) else s;
    var s2 := LeavePreview(s1);
    if submit && s2.input.IsEmpty() && s2.defaultValue.None? && s2.inputRequired then
      Transition(s2, Error(InputRequired))
    else
      var s3 := if submit && s2.input.IsEmpty() && s2.defaultValue.Some?
                then s2.(input := Extend(s2.input, s2.defaultValue.value)) else s2;
      Transition(s3, Verdict(s3, submit, env))
  }

  /** The prompt's response to one key event. Cycling keys, when a suggestion
      source is configured, are handled first and report `Active`; Escape in
      multiline editing enters the preview and reports the quirk `Cancel`;
      every other key goes through `Route` and `Conclude`. */
  function On<V>(s: Input, key: Key, env: Env<V>): (t: Transition<V>)
    requires s.Valid()
    ensures t.next.Valid() && SameConfig(s, t.next)
    ensures t.state.Cancel? <==> key == Escape && s.multiline == Editing
    ensures t.state.Submit? ==>
      key == Enter && s.multiline != Editing && env.parse(t.next.input.text) == Some(t.state.value)
  {
    var dir := NavDirection(key);
    if dir.Some? && s.autocompleter.Some? then
      Transition(Navigate(s, dir.value, env.filter), Active)
    else if key == Escape && s.multiline == Editing then
      Transition(s.(multiline := Preview), Cancel)
    else
      var (s1, submit) := Route(s, key);
      Conclude(s1, submit, env)
  }
}

=== FILE: input_properties.dfy ===
/** Properties of one key event: suggestion cycling, editing, the multiline
    modes, submission, validation, and the highlighted-suggestion invariant. */
module InputProperties {
  import opened Wrappers
  import opened StringCursor
  import opened Completion
  import Navigation
  import opened TextInput

  /** A cycling key that the prompt's suggestion source handles. */
  predicate IsCycling(s: Input, key: Key) {
    NavDirection(key).Some? && s.autocompleter.Some?
  }

  /** The suggestions a cycling key would cycle through. */
  function CycleList<V>(s: Input, env: Env<V>): seq<string> {
    FilteredSuggestions(s.autocompleter, env.filter, FilterQuery(s))
  }

  /** A submission fills in the first suggestion for the live buffer. */
  predicate FillsOnEnter(s: Input, filter: Filter) {
    && s.autocompleteOnEnter
    && s.autocompletionIndex.None?
    && |FilteredSuggestions(s.autocompleter, filter, s.input.text)| > 0
  }

  // ---------------------------------------------------------------------
  // Cycling

  /** With no suggestions for the filter query a cycling key is absorbed:
      nothing changes and the prompt stays active. */
  lemma CyclingWithoutSuggestionsIsAbsorbed<V>(s: Input, key: Key, env: Env<V>)
    requires s.Valid() && IsCycling(s, key) && |CycleList(s, env)| == 0
    ensures On(s, key, env) == Transition(s, Active)
  {
  }

  /** A cycling key with suggestions: the prompt stays active and keeps its
      mode (a preview survives); the pinned query becomes the query that was
      filtered on (the live buffer when none was pinned yet); the highlight
      moves as `NextIndex` says and stays inside the list; a highlighted
      suggestion becomes the whole buffer, while Tab's drop of the highlight
      leaves the buffer as it was. */
  lemma CyclingMovesHighlight<V>(s: Input, key: Key, env: Env<V>)
    requires s.Valid() && IsCycling(s, key) && |CycleList(s, env)| > 0
    ensures var t := On(s, key, env);
      var list := CycleList(s, env);
      && t.state == Active
      && t.next.multiline == s.multiline
      && t.next.autocompletionQuery == FilterQuery(s)
      && t.next.autocompletionIndex == Navigation.NextIndex(NavDirection(key).value, s.autocompletionIndex, |list|)
      && (t.next.autocompletionIndex.Some? ==>
            t.next.autocompletionIndex.value < |list|
            && t.next.input.text == list[t.next.autocompletionIndex.value])
      && (t.next.autocompletionIndex.None? ==> t.next.input == s.input)
  {
  }

  /** Without a suggestion source a cycling key is an ordinary key: the event
      is processed exactly like any unhandled key. */
  lemma CyclingWithoutSourceFallsThrough<V>(s: Input, key: Key, env: Env<V>)
    requires s.Valid() && NavDirection(key).Some? && s.autocompleter.None?
    ensures On(s, key, env) == On(s, Other, env)
  {
  }

  /** When both the pinned query and the buffer are empty, cycling pins the
      empty query again, so cycling does not count as started: the next
      cycling key filters on the suggestion now in the buffer. */
  lemma BlindCyclingLeavesQueryUnpinned<V>(s: Input, key: Key, env: Env<V>)
    requires s.Valid() && IsCycling(s, key) && |CycleList(s, env)| > 0
    requires s.autocompletionQuery == [] && s.input.IsEmpty()
    ensures var t := On(s, key, env);
      && t.next.autocompletionQuery == []
      && (t.next.autocompletionIndex.Some? ==>
            FilterQuery(t.next) == CycleList(s, env)[t.next.autocompletionIndex.value])
  {
    CyclingMovesHighlight(s, key, env);
  }

  // ---------------------------------------------------------------------
  // Editing keys

  /** A printable character or Backspace outside the preview leaves the text
      to the host's line editor: `On` forgets the highlight and the pinned
      query, and leaves the buffer and the mode alone. */
  lemma EditOutsidePreviewClearsCompletion<V>(s: Input, key: Key, env: Env<V>)
    requires s.Valid() && s.multiline != Preview
    requires (key.Char? && !IsAsciiControl(key.ch)) || key == Backspace
    ensures var t := On(s, key, env);
      && t.next.autocompletionIndex.None? && t.next.autocompletionQuery == []
      && t.next.input == s.input && t.next.multiline == s.multiline
      && t.state == Verdict(t.next, false, env)
  {
  }

  /** In the preview a printable character is inserted and Backspace deletes
      to the left by `On` itself; the suggestion state is left as it was and
      the prompt returns to editing. */
  lemma EditInPreview<V>(s: Input, key: Key, env: Env<V>)
    requires s.Valid() && s.multiline == Preview
    requires (key.Char? && !IsAsciiControl(key.ch)) || key == Backspace
    ensures var t := On(s, key, env);
      && t.next.input == (if key.Char? then Insert(s.input, key.ch) else DeleteLeft(s.input))
      && t.next.autocompletionIndex == s.autocompletionIndex
      && t.next.autocompletionQuery == s.autocompletionQuery
      && t.next.multiline == Editing
      && t.state == Verdict(t.next, false, env)
  {
  }

  /** A printable character is entered exactly once: by the host's line
      editor when it may edit the buffer, by `On` otherwise. */
  lemma CharHasOneEditor<V>(s: Input, c: char, env: Env<V>)
    requires s.Valid() && !IsAsciiControl(c)
    ensures FrameworkMayEdit(s) <==> On(s, Char(c), env).next.input == s.input
  {
    if s.multiline == Preview {
      var r := On(s, Char(c), env).next.input;
      assert |r.text| == |s.input.text| + 1;
    }
  }

  // ---------------------------------------------------------------------
  // Modes

  /** The mode after any event: `On` never enters or leaves the disabled
      mode; cycling keeps the mode; Escape in editing enters the preview;
      every other event ends in editing. */
  lemma ModeAfterEvent<V>(s: Input, key: Key, env: Env<V>)
    requires s.Valid()
    ensures On(s, key, env).next.multiline ==
      if s.multiline == Disabled then Disabled
      else if IsCycling(s, key) then s.multiline
      else if key == Escape && s.multiline == Editing then Preview
      else Editing
  {
  }

  /** Escape in editing enters the preview, changes nothing else and
      reports the one-event `Cancel`. */
  lemma EscapeEntersPreview<V>(s: Input, env: Env<V>)
    requires s.Valid() && s.multiline == Editing
    ensures On(s, Escape, env) == Transition(s.(multiline := Preview), Cancel)
  {
  }

  /** Enter in editing inserts a line break and never submits. */
  lemma EnterInEditingBreaksLine<V>(s: Input, env: Env<V>)
    requires s.Valid() && s.multiline == Editing
    ensures var t := On(s, Enter, env);
      && t.next.input == Insert(s.input, '\n')
      && t.next.multiline == Editing
      && t.state == Verdict(t.next, false, env)
  {
  }

  // ---------------------------------------------------------------------
  // Submission

  /** On submission with nothing highlighted and auto-completion on Enter
      enabled, the first suggestion for the live buffer replaces the text. An
      empty first suggestion erases what was typed, so the empty-submission
      rules follow: the default takes its place, or a required prompt refuses
      it. Otherwise the checks run on the suggestion with submission
      requested. */
  lemma SubmitFillsFirstSuggestion<V>(s: Input, env: Env<V>)
    requires s.Valid() && s.multiline != Editing && FillsOnEnter(s, env.filter)
    ensures var first := FilteredSuggestions(s.autocompleter, env.filter, s.input.text)[0];
      var t := On(s, Enter, env);
      && t.next.input.text == (if |first| == 0 && s.defaultValue.Some? then s.defaultValue.value else first)
      && (|first| > 0 ==> t.state == Verdict(t.next, true, env))
      && (|first| == 0 && s.defaultValue.None? && s.inputRequired ==> t.state == Error(InputRequired))
  {
  }

  /** Submitting an empty buffer with no default to fall back on: a required
      prompt refuses with "Input required". */
  lemma EmptySubmitRequired<V>(s: Input, env: Env<V>)
    requires s.Valid() && s.multiline != Editing && !FillsOnEnter(s, env.filter)
    requires s.input.IsEmpty() && s.defaultValue.None? && s.inputRequired
    ensures On(s, Enter, env).state == Error(InputRequired)
  {
  }

  /** Submitting an empty buffer with a default: the default becomes the text,
      and without validators the event submits the parsed default or reports
      a format error. */
  lemma EmptySubmitUsesDefault<V>(s: Input, env: Env<V>)
    requires s.Valid() && s.multiline != Editing && !FillsOnEnter(s, env.filter)
    requires s.input.IsEmpty() && s.defaultValue.Some?
    ensures var t := On(s, Enter, env);
      && t.next.input.text == s.defaultValue.value
      && (s.validateInteractively.None? && s.validateOnEnter.None? ==>
            t.state == match env.parse(s.defaultValue.value)
                       case Some(v) => Submit(v)
                       case None => Error(InvalidFormat))
  {
    var d := s.defaultValue.value;
    var t := On(s, Enter, env);
    assert Route(s, Enter) == (s, true);
    assert t == Conclude(s, true, env);
    assert Extend(s.input, d).text == d by {
      assert s.input.pos == 0;
    }
  }

  /** Submitting an empty buffer to an optional prompt with no default: the
      empty text goes on to parsing. */
  lemma EmptySubmitOptional<V>(s: Input, env: Env<V>)
    requires s.Valid() && s.multiline != Editing && !FillsOnEnter(s, env.filter)
    requires s.input.IsEmpty() && s.defaultValue.None? && !s.inputRequired
    requires s.validateInteractively.None? && s.validateOnEnter.None?
    ensures On(s, Enter, env).state == match env.parse([])
                                       case Some(v) => Submit(v)
                                       case None => Error(InvalidFormat)
  {
  }

  /** The interactive checks pass: no interactive validator, or it accepts
      the text and the text parses. */
  predicate InteractiveAccepts<V>(s: Input, text: string, env: Env<V>) {
    s.validateInteractively.None? ||
      (s.validateInteractively.value(text).Pass? && env.parse(text).Some?)
  }

  /** The order of the checks on the final text. The interactive validator
      runs first, submission or not, and its reason is reported; then the
      text must parse even without submission; without submission the event
      ends there. On submission the on-submit validator runs next, and only
      text that parses is submitted. */
  lemma VerdictOrder<V>(s: Input, submit: bool, env: Env<V>)
    ensures var text := s.input.text;
      var state := Verdict(s, submit, env);
      && (s.validateInteractively.Some? && s.validateInteractively.value(text).Fail? ==>
            state == Error(s.validateInteractively.value(text).error))
      && (s.validateInteractively.Some? && s.validateInteractively.value(text).Pass? && env.parse(text).None? ==>
            state == Error(InvalidFormat))
      && (!submit ==> state.Active? || state.Error?)
      && (!submit && InteractiveAccepts(s, text, env) ==> state == Active)
      && (submit && InteractiveAccepts(s, text, env)
          && s.validateOnEnter.Some? && s.validateOnEnter.value(text).Fail? ==>
            state == Error(s.validateOnEnter.value(text).error))
      && (state.Submit? <==>
            && submit
            && (s.validateInteractively.None? || s.validateInteractively.value(text).Pass?)
            && (s.validateOnEnter.None? || s.validateOnEnter.value(text).Pass?)
            && env.parse(text).Some?)
  {
  }

  /** Every event that is not a cycling key, Escape in editing, or a refused
      empty submission ends in the validation stage on the final text; only
      Enter outside editing submits. */
  lemma EventsEndInVerdict<V>(s: Input, key: Key, env: Env<V>)
    requires s.Valid() && !IsCycling(s, key) && !(key == Escape && s.multiline == Editing)
    ensures var t := On(s, key, env);
      var submit := key == Enter && s.multiline != Editing;
      t.state == (if submit && t.next.input.IsEmpty() && s.defaultValue.None? && s.inputRequired
                  then Error(InputRequired)
                  else Verdict(t.next, submit, env))
  {
  }

  /** A key that is not Enter, not handled by cycling and not Escape in
      editing never submits, and
      an interactive validator that rejects the resulting text turns the
      event into that rejection, before Enter is ever pressed. */
  lemma InteractiveValidatorRunsWithoutSubmit<V>(s: Input, key: Key, env: Env<V>)
    requires s.Valid() && key != Enter && !IsCycling(s, key) && !(key == Escape && s.multiline == Editing)
    requires s.validateInteractively.Some?
    ensures var t := On(s, key, env);
      && !t.state.Submit?
      && (s.validateInteractively.value(t.next.input.text).Fail? ==>
            t.state == Error(s.validateInteractively.value(t.next.input.text).error))
  {
    EventsEndInVerdict(s, key, env);
    VerdictOrder(On(s, key, env).next, false, env);
  }

  // ---------------------------------------------------------------------
  // The highlight invariant

  /** A highlighted suggestion is a valid position in the suggestions for a
      non-empty pinned query. */
  predicate IndexCoherent(s: Input, filter: Filter) {
    s.autocompletionIndex.None? ||
      (|s.autocompletionQuery| > 0 &&
       s.autocompletionIndex.value < |FilteredSuggestions(s.autocompleter, filter, s.autocompletionQuery)|)
  }

  /** A cycling key pressed on an empty buffer with no pinned query. */
  predicate BlindCycling<V>(s: Input, key: Key, env: Env<V>) {
    IsCycling(s, key) && s.autocompletionQuery == [] && s.input.IsEmpty() && |CycleList(s, env)| > 0
  }

  /** Every event except blind cycling keeps the highlight coherent. */
  lemma OnKeepsIndexCoherent<V>(s: Input, key: Key, env: Env<V>)
    requires s.Valid() && IndexCoherent(s, env.filter) && !BlindCycling(s, key, env)
    ensures IndexCoherent(On(s, key, env).next, env.filter)
  {
    if IsCycling(s, key) && |CycleList(s, env)| > 0 {
      CyclingMovesHighlight(s, key, env);
    }
  }

  /** Blind cycling leaves a highlight with no pinned query: the invariant
      is lost. */
  lemma BlindCyclingBreaksIndexCoherence<V>(s: Input, key: Key, env: Env<V>)
    requires s.Valid() && IndexCoherent(s, env.filter) && BlindCycling(s, key, env)
    ensures !IndexCoherent(On(s, key, env).next, env.filter)
  {
    CyclingMovesHighlight(s, key, env);
    var t := On(s, key, env);
    assert s.autocompletionIndex.None?;
    assert t.next.autocompletionIndex.Some?;
  }

  /** While the highlight is coherent, the source's ArrowUp step stays in
      range: the out-of-range position needs a highlight that is not. */
  lemma UpAsWrittenSafeWhenCoherent<V>(s: Input, env: Env<V>)
    requires s.Valid() && IndexCoherent(s, env.filter) && |CycleList(s, env)| > 0
    ensures Navigation.UpIndexAsWritten(s.autocompletionIndex, |CycleList(s, env)|) < |CycleList(s, env)|
  {
  }

  // ---------------------------------------------------------------------
  // Set-up

  /** The set-up is done once: running it again changes nothing, because the
      placeholder it writes is never empty. */
  lemma InteractIsIdempotent(s: Input)
    requires s.Valid()
    ensures Interact(Interact(s)) == Interact(s)
  {
    if s.placeholder.IsEmpty() && s.defaultValue.Some? {
      assert |Interact(s).placeholder.text| >= |DefaultSuffix| > 0;
    }
  }

  /** A multiline prompt with a default and no placeholder starts in the
      preview, showing the default as its placeholder. */
  lemma DefaultStartsInPreview(prompt: string, value: string)
    ensures var s := Interact(DefaultInput(Multiline(New(prompt)), value));
      s.multiline == Preview && s.placeholder.text == value + DefaultSuffix
  {
  }

  /** A non-empty placeholder set by the caller wins over the default: the
      placeholder keeps the caller's text and the prompt starts in editing. */
  lemma ExplicitPlaceholderSuppressesDefault(prompt: string, text: string, value: string)
    requires |text| > 0
    ensures var s := Interact(DefaultInput(WithPlaceholder(Multiline(New(prompt)), text), value));
      s.multiline == Editing && s.placeholder.text == text
  {
  }

  // ---------------------------------------------------------------------
  // Ordinary events

  /** The keys that reach the catch-all arm of the dispatch: keys `On` does
      not match, Escape outside editing, ASCII control characters, and
      cycling keys when there is no suggestion source. */
  predicate IsCatchAll(s: Input, key: Key) {
    || key == Other
    || (key == Escape && s.multiline != Editing)
    || (key.Char? && IsAsciiControl(key.ch))
    || (NavDirection(key).Some? && s.autocompleter.None?)
  }

  /** An ordinary submission (Enter outside editing, text typed, nothing to
      fill in) submits exactly the typed text: the buffer and the suggestion
      state are kept, the preview becomes editing, and the checks run on the
      typed text with submission requested. */
  lemma PlainSubmitKeepsTypedText<V>(s: Input, env: Env<V>)
    requires s.Valid() && s.multiline != Editing && !FillsOnEnter(s, env.filter) && !s.input.IsEmpty()
    ensures On(s, Enter, env) == Transition(LeavePreview(s), Verdict(s, true, env))
  {
  }

  /** A catch-all key changes nothing but the mode (the preview becomes
      editing) and reports the checks on the unchanged text, with no
      submission. */
  lemma CatchAllOnlyLeavesPreview<V>(s: Input, key: Key, env: Env<V>)
    requires s.Valid() && IsCatchAll(s, key)
    ensures On(s, key, env) == Transition(LeavePreview(s), Verdict(s, false, env))
  {
  }

  // ---------------------------------------------------------------------
  // Configuration and its effect on events

  /** The required flag decides an empty submission with no default: a
      required prompt refuses it with "Input required", an optional one hands
      the empty text to the parser. */
  lemma RequiredDecidesEmptySubmit<V>(s: Input, env: Env<V>)
    requires s.Valid() && s.multiline != Editing && !FillsOnEnter(s, env.filter)
    requires s.input.IsEmpty() && s.defaultValue.None?
    requires s.validateInteractively.None? && s.validateOnEnter.None?
    ensures On(Required(s, true), Enter, env).state == Error(InputRequired)
    ensures On(Required(s, false), Enter, env).state == match env.parse([])
                                                       case Some(v) => Submit(v)
                                                       case None => Error(InvalidFormat)
  {
    EmptySubmitRequired(Required(s, true), env);
    EmptySubmitOptional(Required(s, false), env);
  }

  /** A default value is what an empty submission takes as its text. */
  lemma DefaultInputFillsEmptySubmit<V>(s: Input, value: string, env: Env<V>)
    requires s.Valid() && s.multiline != Editing && !FillsOnEnter(s, env.filter) && s.input.IsEmpty()
    ensures On(DefaultInput(s, value), Enter, env).next.input.text == value
  {
    EmptySubmitUsesDefault(DefaultInput(s, value), env);
  }

  /** With multiline editing on, Enter breaks the line and never submits;
      a new single-line prompt treats Enter as a submission instead, which
      with nothing typed is refused as "Input required". */
  lemma MultilineMakesEnterBreakLine<V>(s: Input, prompt: string, env: Env<V>)
    requires s.Valid()
    ensures var t := On(Multiline(s), Enter, env);
      t.next.input == Insert(s.input, '\n') && !t.state.Submit?
    ensures On(New(prompt), Enter, env).state == Error(InputRequired)
  {
    EnterInEditingBreaksLine(Multiline(s), env);
  }

  /** The on-submit validator is consulted on submission only: its rejection
      of the typed text is what Enter reports, while a catch-all key reports
      the same as without it. */
  lemma ValidateRejectsOnSubmitOnly<V>(s: Input, v: Validator, key: Key, env: Env<V>)
    requires s.Valid() && s.multiline != Editing && !FillsOnEnter(s, env.filter) && !s.input.IsEmpty()
    requires s.validateInteractively.None? && v(s.input.text).Fail?
    requires IsCatchAll(s, key)
    ensures On(Validate(s, v), Enter, env).state == Error(v(s.input.text).error)
    ensures On(Validate(s, v), key, env).state == On(s, key, env).state
  {
    PlainSubmitKeepsTypedText(Validate(s, v), env);
    CatchAllOnlyLeavesPreview(Validate(s, v), key, env);
    CatchAllOnlyLeavesPreview(s, key, env);
  }

  /** The interactive validator is consulted on every event: its rejection
      of the text is what even a catch-all key reports. */
  lemma ValidateInteractivelyRejectsAnyEvent<V>(s: Input, v: Validator, key: Key, env: Env<V>)
    requires s.Valid() && IsCatchAll(s, key) && v(s.input.text).Fail?
    ensures On(ValidateInteractively(s, v), key, env).state == Error(v(s.input.text).error)
  {
    CatchAllOnlyLeavesPreview(ValidateInteractively(s, v), key, env);
  }

  /** A static candidate list offers the filtered candidates, and the first
      Tab puts the first of them into the buffer. */
  lemma AutocompleteOffersFilteredCandidates<V>(s: Input, candidates: seq<string>, env: Env<V>)
    requires s.Valid() && s.autocompletionIndex.None?
    requires |env.filter(FilterQuery(s), candidates)| > 0
    ensures CycleList(Autocomplete(s, candidates), env) == env.filter(FilterQuery(s), candidates)
    ensures On(Autocomplete(s, candidates), Tab, env).next.input.text == env.filter(FilterQuery(s), candidates)[0]
  {
    CyclingMovesHighlight(Autocomplete(s, candidates), Tab, env);
  }

  /** A handler's list for the filter query is what ArrowDown cycles
      through: the first press puts its first entry into the buffer. */
  lemma AutocompleteWithCyclesHandlerList<V>(s: Input, handler: string -> SuggestionResult, env: Env<V>)
    requires s.Valid() && s.autocompletionIndex.None?
    requires handler(FilterQuery(s)).Success? && |handler(FilterQuery(s)).value| > 0
    ensures On(AutocompleteWith(s, handler), ArrowDown, env).next.input.text == handler(FilterQuery(s)).value[0]
  {
    CyclingMovesHighlight(AutocompleteWith(s, handler), ArrowDown, env);
  }

  /** Auto-completion on Enter fills in the first suggestion for the live
      buffer when nothing is highlighted; without it, an ordinary submission
      keeps the typed text. */
  lemma AutocompleteOnEnterFillsFirst<V>(s: Input, env: Env<V>)
    requires s.Valid() && s.multiline != Editing && s.autocompletionIndex.None?
    requires |FilteredSuggestions(s.autocompleter, env.filter, s.input.text)| > 0
    ensures var first := FilteredSuggestions(s.autocompleter, env.filter, s.input.text)[0];
      On(AutocompleteOnEnter(s), Enter, env).next.input.text
        == (if |first| == 0 && s.defaultValue.Some? then s.defaultValue.value else first)
    ensures !s.autocompleteOnEnter && !s.input.IsEmpty() ==> On(s, Enter, env).next.input == s.input
  {
    SubmitFillsFirstSuggestion(AutocompleteOnEnter(s), env);
    if !s.autocompleteOnEnter && !s.input.IsEmpty() {
      PlainSubmitKeepsTypedText(s, env);
    }
  }

  /** A suggestion handler that fails on every query never blocks typing:
      cycling keys change nothing. */
  lemma FailingSourceAbsorbsCycling<V>(s: Input, key: Key, env: Env<V>)
    requires s.Valid() && s.autocompleter.Some? && s.autocompleter.value.Callback?
    requires forall q :: s.autocompleter.value.handler(q).Failure?
    requires IsCycling(s, key)
    ensures On(s, key, env) == Transition(s, Active)
  {
    assert FilteredSuggestions(s.autocompleter, env.filter, FilterQuery(s)) == [];
  }

  /** With a suggestion handler that fails on every query, every key other
      than a cycling one does exactly what it does with no source at all. */
  lemma FailingSourceActsAsNone<V>(s: Input, key: Key, env: Env<V>)
    requires s.Valid() && s.autocompleter.Some? && s.autocompleter.value.Callback?
    requires forall q :: s.autocompleter.value.handler(q).Failure?
    requires !IsCycling(s, key)
    ensures var bare := On(s.(autocompleter := None), key, env);
      On(s, key, env) == Transition(bare.next.(autocompleter := s.autocompleter), bare.state)
  {
    var bare := s.(autocompleter := None);
    var (r, submit) := Route(s, key);
    assert Route(bare, key) == (r.(autocompleter := None), submit);
    ConcludeIgnoresFailingSource(r, submit, env);
  }

  /** The submission stage with a source that always fails behaves as with no
      source at all. */
  lemma ConcludeIgnoresFailingSource<V>(s: Input, submit: bool, env: Env<V>)
    requires s.Valid() && s.autocompleter.Some? && s.autocompleter.value.Callback?
    requires forall q :: s.autocompleter.value.handler(q).Failure?
    ensures var bare := Conclude(s.(autocompleter := None), submit, env);
      Conclude(s, submit, env) == Transition(bare.next.(autocompleter := s.autocompleter), bare.state)
  {
    var bare := s.(autocompleter := None);
    assert FilteredSuggestions(s.autocompleter, env.filter, s.input.text) == [];
    assert FilteredSuggestions(bare.autocompleter, env.filter, bare.input.text) == [];
    var s2 := LeavePreview(s);
    var b2 := LeavePreview(bare);
    assert b2 == s2.(autocompleter := None);
    if submit && s2.input.IsEmpty() && s2.defaultValue.Some? {
      var s3 := s2.(input := Extend(s2.input, s2.defaultValue.value));
      var b3 := b2.(input := Extend(b2.input, b2.defaultValue.value));
      assert b3 == s3.(autocompleter := None);
      assert Verdict(b3, submit, env) == Verdict(s3, submit, env);
    } else {
      assert Verdict(b2, submit, env) == Verdict(s2, submit, env);
    }
  }

  /** After cycling highlights a suggestion, the completion of that
      highlight is exactly the text now in the buffer. */
  lemma CompletionOfHighlightIsBuffer<V>(s: Input, key: Key, env: Env<V>)
    requires s.Valid() && IsCycling(s, key) && |CycleList(s, env)| > 0
    requires On(s, key, env).next.autocompletionIndex.Some?
    ensures var t := On(s, key, env);
      GetCompletion(s.autocompleter.value, FilterQuery(s),
                    Some(CycleList(s, env)[t.next.autocompletionIndex.value]))
        == Some(t.next.input.text)
  {
    CyclingMovesHighlight(s, key, env);
  }
}

=== FILE: navigation.dfy ===
/** Index arithmetic of suggestion cycling: how Tab, ArrowDown and ArrowUp move
    the highlighted position in a non-empty list of `len` suggestions. `None`
    means no suggestion is highlighted. */
module Navigation {
  import opened Wrappers

  /** The three cycling keys. */
  datatype Direction = Tab | Down | Up

  /** The highlighted position after one cycling key, for a list of `len`
      suggestions. Tab walks forward and, past the last suggestion, drops the
      highlight; Down and Up wrap around and always highlight something. A
      stale position (at or past `len`, left over from a longer list) is
      treated as the end of the list by all three keys. */
  function NextIndex(dir: Direction, idx: Option<nat>, len: nat): (r: Option<nat>)
    requires len > 0
    ensures r.Some? ==> r.value < len
    ensures dir != Tab ==> r.Some?
    ensures dir == Tab ==> (r.None? <==> idx.Some? && idx.value >= len - 1)
    ensures idx.None? ==> r == (if dir == Up then Some(len - 1) else Some(0))
    ensures dir == Up && idx.Some? && idx.value >= len ==> r == Some(len - 1)
  {
    match dir
    case Tab =>
      (match idx
       case None => Some(0)
       case Some(i) => if i >= len - 1 then None else Some(i + 1))
    case Down =>
      (match idx
       case None => Some(0)
       case Some(i) => if i >= len - 1 then Some(0) else Some(i + 1))
    case Up =>
      (match idx
       case None => Some(len - 1)
       case Some(i) => if i == 0 || i >= len then Some(len - 1) else Some(i - 1))
  }

  /** The ArrowUp step exactly as the source computes it: the previous
      position minus one, or the last position when there was none or it was
      the first. Nothing keeps the result below `len`: it is a valid position
      exactly when the previous one was at most `len`. */
  function UpIndexAsWritten(idx: Option<nat>, len: nat): (r: nat)
    requires len > 0
    ensures r < len <==> idx.None? || idx.value <= len
  {
    match idx
    case None => len - 1
    case Some(i) => if i == 0 then len - 1 else i - 1
  }

  /** Wherever the source's ArrowUp step stays in range, the corrected step
      gives the same position. */
  lemma UpAsWrittenAgreesInRange(idx: Option<nat>, len: nat)
    requires len > 0
    requires idx.None? || idx.value <= len
    ensures NextIndex(Up, idx, len) == Some(UpIndexAsWritten(idx, len))
  {
  }

  /** A position left over from a list of four, pressed Up on a list of one:
      the source's step lands on position 2 of a one-element list. */
  lemma UpAsWrittenLeavesRange()
    ensures UpIndexAsWritten(Some(3), 1) == 2
    ensures NextIndex(Up, Some(3), 1) == Some(0)
  {
  }

  /** Down moves one position forward round the circle of `len` positions. */
  lemma DownIsSuccessorModLen(i: nat, len: nat)
    requires i < len
    ensures NextIndex(Down, Some(i), len) == Some((i + 1) % len)
  {
  }

  /** Up moves one position backward round the circle of `len` positions. */
  lemma UpIsPredecessorModLen(i: nat, len: nat)
    requires i < len
    ensures NextIndex(Up, Some(i), len) == Some((i + len - 1) % len)
  {
    if i == 0 {
      assert (len - 1) % len == len - 1;
    } else {
      assert (i + len - 1) % len == i - 1 by {
        assert i + len - 1 == (i - 1) + len;
      }
    }
  }

  /** Up undoes Down and Down undoes Up on every valid position. */
  lemma DownUpInverse(i: nat, len: nat)
    requires i < len
    ensures NextIndex(Up, NextIndex(Down, Some(i), len), len) == Some(i)
    ensures NextIndex(Down, NextIndex(Up, Some(i), len), len) == Some(i)
  {
  }

  /** The position after `k` presses of Tab starting from `idx`. */
  function TabTimes(idx: Option<nat>, len: nat, k: nat): (r: Option<nat>)
    requires len > 0
    ensures k > 0 && r.Some? ==> r.value < len
    decreases k
  {
    if k == 0 then idx else TabTimes(NextIndex(Tab, idx, len), len, k - 1)
  }

  /** From no highlight, Tab visits the positions 0, 1, ..., len - 1 in order
      and the press after the last one drops the highlight again. */
  lemma {:induction false} TabVisitsInOrder(len: nat, k: nat)
    requires len > 0 && k <= len
    ensures TabTimes(None, len, k) == (if k == 0 then None else Some(k - 1))
    ensures TabTimes(None, len, len + 1) == None
  {
    TabWalk(len, k);
    TabWalk(len, len);
    TabSplit(None, len, len, 1);
  }

  /** Walking helper: `k` presses from no highlight land on position `k - 1`. */
  lemma {:induction false} TabWalk(len: nat, k: nat)
    requires len > 0 && k <= len
    ensures TabTimes(None, len, k) == (if k == 0 then None else Some(k - 1))
  {
    if k > 1 {
      TabWalk(len, k - 1);
      TabSplit(None, len, k - 1, 1);
    }
  }

  /** `a + b` presses are `a` presses followed by `b` presses. */
  lemma {:induction false} TabSplit(idx: Option<nat>, len: nat, a: nat, b: nat)
    requires len > 0
    ensures TabTimes(idx, len, a + b) == TabTimes(TabTimes(idx, len, a), len, b)
    decreases a
  {
    if a > 0 {
      TabSplit(NextIndex(Tab, idx, len), len, a - 1, b);
    }
  }
}

=== FILE: render.dfy ===
/** The choices rendering makes, separated from styling: which text the input
    line shows, which footer message is chosen, and which suggestions are
    listed with which one highlighted. Rendering only reads the prompt. */
module Render {
  import opened Wrappers
  import opened StringCursor
  import opened Completion
  import opened TextInput
  import opened InputProperties

  /** One listed suggestion and whether it is highlighted. */
  datatype Item = Item(text: string, selected: bool)

  /** What one render shows, before the theme styles it. */
  datatype View = View(showsPlaceholder: bool, line: string, footer: string, items: seq<Item>)

  /** The footer hint of each multiline mode. */
  function ModeHint(mode: Mode): string {
    match mode
    case Editing => "[Esc](Preview)"
    case Preview => "[Enter](Submit)"
    case Disabled => ""
  }

  /** The footer shown under a listed block of suggestions. */
  const SuggestionFooter: string := "\r\U{2514} \U{25C7}"

  /** The render choices for the prompt and the state the last event
      reported. Suggestions are listed only while the state is `Active` and
      the filter query has suggestions; they then replace the mode hint. */
  function Plan<V>(s: Input, state: State<V>, filter: Filter): (v: View)
    ensures var list := FilteredSuggestions(s.autocompleter, filter, FilterQuery(s));
      && (v.showsPlaceholder <==> s.input.IsEmpty())
      && v.line == (if s.input.IsEmpty() then s.placeholder.text else s.input.text)
      && (|v.items| > 0 <==> state.Active? && |list| > 0)
      && (|v.items| > 0 ==> |v.items| == |list|)
      && (forall i :: 0 <= i < |v.items| ==> v.items[i].text == list[i])
      && (forall i :: 0 <= i < |v.items| ==>
            (v.items[i].selected <==> s.autocompletionIndex == Some(i)))
      && (|list| == 0 ==> v.footer == ModeHint(s.multiline))
      && (|list| > 0 ==> v.footer == if state.Active? then SuggestionFooter else "")
  {
    var list := FilteredSuggestions(s.autocompleter, filter, FilterQuery(s));
    var items :=
      if !state.Active? || |list| == 0 then []
      else seq(|list|, i requires 0 <= i < |list| =>
                 Item(list[i], s.autocompletionIndex.Some? && s.autocompletionIndex.value == i));
    var message := if s.autocompleter.Some? && |list| > 0 then "" else ModeHint(s.multiline);
    var footer := if state.Active? && s.autocompleter.Some? && |list| > 0 then SuggestionFooter else message;
    var line := if s.input.IsEmpty() then s.placeholder.text else s.input.text;
    View(s.input.IsEmpty(), line, footer, items)
  }

  /** At most one listed suggestion is highlighted. */
  lemma AtMostOneHighlighted<V>(s: Input, state: State<V>, filter: Filter, i: nat, j: nat)
    requires i < j < |Plan(s, state, filter).items|
    ensures !(Plan(s, state, filter).items[i].selected && Plan(s, state, filter).items[j].selected)
  {
  }

  /** After a cycling key that highlights a suggestion, with a non-empty
      filter query, the next render lists the suggestions and highlights
      exactly the one now in the buffer. */
  lemma CyclingShowsHighlightInBuffer<V>(s: Input, key: Key, env: Env<V>)
    requires s.Valid() && IsCycling(s, key) && |CycleList(s, env)| > 0 && |FilterQuery(s)| > 0
    requires On(s, key, env).next.autocompletionIndex.Some?
    ensures var t := On(s, key, env);
      var v := Plan(t.next, t.state, env.filter);
      var i := t.next.autocompletionIndex.value;
      && i < |v.items| && v.items[i].selected && v.items[i].text == t.next.input.text
  {
    CyclingMovesHighlight(s, key, env);
    var t := On(s, key, env);
    assert FilterQuery(t.next) == FilterQuery(s);
  }
}

=== FILE: scenarios.dfy ===
/** Concrete walks through the prompt, each a short story of key events. */
module Scenarios {
  import opened Wrappers
  import opened StringCursor
  import opened Completion
  import Navigation
  import opened TextInput
  import opened InputProperties

  /** A prompt holding "r" with the candidates rust and ruby. */
  function RustRubyPrompt(): (s: Input)
    ensures s.Valid() && s.input.text == "r" && s.autocompletionIndex.None?
  {
    Autocomplete(New("Pick a language"), ["rust", "ruby"]).(input := Cursor("r", 1))
  }

  /** With both candidates matching "r": the first Tab puts rust in the
      buffer, the second ruby, and the third drops the highlight while ruby
      stays in the buffer. */
  lemma RustRubyTabCycle<V>(env: Env<V>)
    requires env.filter("r", ["rust", "ruby"]) == ["rust", "ruby"]
    ensures var t1 := On(RustRubyPrompt(), Tab, env);
      var t2 := On(t1.next, Tab, env);
      var t3 := On(t2.next, Tab, env);
      && t1.next.autocompletionIndex == Some(0) && t1.next.input.text == "rust"
      && t2.next.autocompletionIndex == Some(1) && t2.next.input.text == "ruby"
      && t3.next.autocompletionIndex.None? && t3.next.input.text == "ruby"
      && t1.state == Active && t2.state == Active && t3.state == Active
  {
    var s := RustRubyPrompt();
    CyclingMovesHighlight(s, Tab, env);
    var t1 := On(s, Tab, env);
    assert t1.next.autocompletionQuery == "r";
    CyclingMovesHighlight(t1.next, Tab, env);
    var t2 := On(t1.next, Tab, env);
    CyclingMovesHighlight(t2.next, Tab, env);
  }

  /** A handler offering four suggestions for the empty query and, for any
      other query, only that query itself. */
  function ShrinkingHandler(q: string): SuggestionResult {
    if q == [] then Success(["a", "b", "c", "d"]) else Success([q])
  }

  /** ArrowUp on an empty prompt highlights the last of four suggestions but
      leaves the query unpinned; the next ArrowUp filters on "d", which has a
      single suggestion. The source's step then computes position 2 of that
      one-element list, an index past its end; the corrected step wraps to
      position 0. */
  lemma UpPastShrunkenList<V>(env: Env<V>)
    ensures var s := AutocompleteWith(New("Pick"), ShrinkingHandler);
      var t1 := On(s, ArrowUp, env);
      var t2 := On(t1.next, ArrowUp, env);
      && t1.next.autocompletionIndex == Some(3) && t1.next.input.text == "d"
      && t1.next.autocompletionQuery == []
      && CycleList(t1.next, env) == ["d"]
      && Navigation.UpIndexAsWritten(t1.next.autocompletionIndex, 1) == 2
      && t2.next.autocompletionIndex == Some(0) && t2.next.input.text == "d"
  {
    var s := AutocompleteWith(New("Pick"), ShrinkingHandler);
    assert CycleList(s, env) == ["a", "b", "c", "d"];
    CyclingMovesHighlight(s, ArrowUp, env);
    var t1 := On(s, ArrowUp, env);
    assert FilterQuery(t1.next) == "d";
    assert CycleList(t1.next, env) == ["d"];
    CyclingMovesHighlight(t1.next, ArrowUp, env);
  }

  /** Multiline editing: Escape enters the preview with the one-event
      `Cancel`; a character typed in the preview is inserted by the prompt
      itself and brings it back to editing. */
  lemma EscapeThenType<V>(env: Env<V>)
    ensures var s := Multiline(New("Notes"));
      var t1 := On(s, Escape, env);
      var t2 := On(t1.next, Char('x'), env);
      && t1.state == Cancel && t1.next.multiline == Preview
      && t2.next.multiline == Editing && t2.next.input.text == "x"
      && t2.state == Active
  {
  }

  /** Rejects any text that contains a space. */
  function NoSpaces(text: string): Outcome<string> {
    if ' ' in text then Fail("no spaces") else Pass
  }

  /** With an interactive validator rejecting spaces, the event for the space
      typed into "ab cd" (the buffer then holding "ab ") already reports the
      rejection; Enter has not been pressed. */
  lemma SpaceRejectedWhileTyping<V>(env: Env<V>)
    ensures var s := ValidateInteractively(New("Name"), NoSpaces).(input := Cursor("ab ", 3));
      On(s, Char(' '), env).state == Error("no spaces")
  {
    var s := ValidateInteractively(New("Name"), NoSpaces).(input := Cursor("ab ", 3));
    assert ' ' in s.input.text by { assert s.input.text[2] == ' '; }
  }

  /** A prefilled multiline prompt: the set-up starts it in the preview, and
      Enter at once submits the parsed default. */
  lemma PrefilledSubmitsDefault<V>(env: Env<V>, v: V)
    requires env.parse("yes") == Some(v)
    ensures var s := Interact(DefaultInput(Multiline(New("Continue?")), "yes"));
      var t := On(s, Enter, env);
      s.multiline == Preview && t.state == Submit(v) && t.next.input.text == "yes"
  {
    var s := Interact(DefaultInput(Multiline(New("Continue?")), "yes"));
    assert !FillsOnEnter(s, env.filter);
    EmptySubmitUsesDefault(s, env);
  }

  /** A handler whose only suggestion is the empty text. */
  function EmptySuggestionHandler(q: string): SuggestionResult {
    Success([""])
  }

  /** With auto-completion on Enter and a handler that only ever suggests the
      empty text, Enter on "abc" erases what was typed and the required
      prompt refuses the now-empty submission. */
  lemma EmptySuggestionErasesTypedText<V>(env: Env<V>)
    ensures var s := AutocompleteOnEnter(AutocompleteWith(New("Name"), EmptySuggestionHandler))
                       .(input := Cursor("abc", 3));
      var t := On(s, Enter, env);
      t.state == Error(InputRequired) && t.next.input.IsEmpty()
  {
    var s := AutocompleteOnEnter(AutocompleteWith(New("Name"), EmptySuggestionHandler))
               .(input := Cursor("abc", 3));
    SubmitFillsFirstSuggestion(s, env);
  }
}

=== FILE: session.dfy ===
/** Sequences of key events fed to one prompt, and the properties that hold
    across them. Every key is fed to `On` whatever the previous event
    reported; when the host stops reading is not part of this model. */
module Session {
  import opened Wrappers
  import opened StringCursor
  import opened Completion
  import Navigation
  import opened TextInput
  import opened InputProperties

  /** The prompt after feeding it `keys` in order. */
  function Run<V>(s: Input, keys: seq<Key>, env: Env<V>): (r: Input)
    requires s.Valid()
    ensures r.Valid() && SameConfig(s, r)
    decreases |keys|
  {
    if |keys| == 0 then s else Run(On(s, keys[0], env).next, keys[1..], env)
  }

  /** `k` presses of the same key. */
  function Repeat(key: Key, k: nat): (r: seq<Key>)
    ensures |r| == k && forall i :: 0 <= i < k ==> r[i] == key
  {
    seq(k, _ => key)
  }

  /** Feeding `a` then `b` is feeding `a + b`. */
  lemma {:induction false} RunAppend<V>(s: Input, a: seq<Key>, b: seq<Key>, env: Env<V>)
    requires s.Valid()
    ensures Run(s, a + b, env) == Run(Run(s, a, env), b, env)
    decreases |a|
  {
    if |a| > 0 {
      assert (a + b)[0] == a[0] && (a + b)[1..] == a[1..] + b;
      RunAppend(On(s, a[0], env).next, a[1..], b, env);
    } else {
      assert a + b == b;
    }
  }

  /** No sequence of events enters or leaves the disabled mode. */
  lemma {:induction false} DisabledIsPermanent<V>(s: Input, keys: seq<Key>, env: Env<V>)
    requires s.Valid()
    ensures Run(s, keys, env).multiline == Disabled <==> s.multiline == Disabled
    decreases |keys|
  {
    if |keys| > 0 {
      ModeAfterEvent(s, keys[0], env);
      DisabledIsPermanent(On(s, keys[0], env).next, keys[1..], env);
    }
  }

  /** No key in the run is pressed as blind cycling. */
  predicate NoBlindCycling<V>(s: Input, keys: seq<Key>, env: Env<V>)
    requires s.Valid()
    decreases |keys|
  {
    |keys| == 0 ||
      (!BlindCycling(s, keys[0], env) && NoBlindCycling(On(s, keys[0], env).next, keys[1..], env))
  }

  /** Without blind cycling, a highlight stays a valid position in the
      suggestions for the pinned query across any run of events. */
  lemma {:induction false} RunKeepsIndexCoherent<V>(s: Input, keys: seq<Key>, env: Env<V>)
    requires s.Valid() && IndexCoherent(s, env.filter) && NoBlindCycling(s, keys, env)
    ensures IndexCoherent(Run(s, keys, env), env.filter)
    decreases |keys|
  {
    if |keys| > 0 {
      OnKeepsIndexCoherent(s, keys[0], env);
      RunKeepsIndexCoherent(On(s, keys[0], env).next, keys[1..], env);
    }
  }

  /** A Tab with a non-empty filter query keeps that query as the filter
      query, so the suggestions cycled through stay the same. */
  lemma TabKeepsQuery<V>(s: Input, env: Env<V>)
    requires s.Valid() && s.autocompleter.Some? && |FilterQuery(s)| > 0 && |CycleList(s, env)| > 0
    ensures var t := On(s, Tab, env);
      && FilterQuery(t.next) == FilterQuery(s)
      && CycleList(t.next, env) == CycleList(s, env)
      && t.next.autocompletionIndex == Navigation.NextIndex(Navigation.Tab, s.autocompletionIndex, |CycleList(s, env)|)
      && (t.next.autocompletionIndex.Some? ==> t.next.input.text == CycleList(s, env)[t.next.autocompletionIndex.value])
      && (t.next.autocompletionIndex.None? ==> t.next.input == s.input)
  {
    CyclingMovesHighlight(s, Tab, env);
  }

  /** `k` Tabs move the highlight as `k` steps of the index arithmetic do,
      over one fixed list of suggestions, and a highlighted suggestion is
      always the buffer's content. */
  lemma {:induction false} TabsFollowIndexArithmetic<V>(s: Input, k: nat, env: Env<V>)
    requires s.Valid() && s.autocompleter.Some? && |FilterQuery(s)| > 0 && |CycleList(s, env)| > 0
    ensures var r := Run(s, Repeat(Tab, k), env);
      && FilterQuery(r) == FilterQuery(s)
      && CycleList(r, env) == CycleList(s, env)
      && r.autocompletionIndex == Navigation.TabTimes(s.autocompletionIndex, |CycleList(s, env)|, k)
    decreases k
  {
    if k > 0 {
      var t := On(s, Tab, env);
      TabKeepsQuery(s, env);
      assert Repeat(Tab, k)[1..] == Repeat(Tab, k - 1);
      TabsFollowIndexArithmetic(t.next, k - 1, env);
    }
  }

  /** The full Tab cycle from no highlight over a list of n suggestions:
      presses 1 to n put suggestions 0 to n - 1 into the buffer in order, and
      press n + 1 drops the highlight while the last suggestion stays in the
      buffer. */
  lemma TabCycle<V>(s: Input, k: nat, env: Env<V>)
    requires s.Valid() && s.autocompleter.Some? && s.autocompletionIndex.None?
    requires |FilterQuery(s)| > 0 && |CycleList(s, env)| > 0
    requires 1 <= k <= |CycleList(s, env)| + 1
    ensures var list := CycleList(s, env);
      var r := Run(s, Repeat(Tab, k), env);
      && (k <= |list| ==> r.autocompletionIndex == Some(k - 1) && r.input.text == list[k - 1])
      && (k == |list| + 1 ==> r.autocompletionIndex.None? && r.input.text == list[|list| - 1])
  {
    var list := CycleList(s, env);
    var n := |list|;
    var j := if k <= n then k else n;
    var before := Run(s, Repeat(Tab, j - 1), env);
    TabsFollowIndexArithmetic(s, j - 1, env);
    Navigation.TabVisitsInOrder(n, j - 1);
    Navigation.TabVisitsInOrder(n, n);
    RunAppend(s, Repeat(Tab, j - 1), [Tab], env);
    assert Repeat(Tab, j - 1) + [Tab] == Repeat(Tab, j);
    TabKeepsQuery(before, env);
    var at := Run(s, Repeat(Tab, j), env);
    assert at == On(before, Tab, env).next;
    if k == n + 1 {
      TabsFollowIndexArithmetic(s, n, env);
      RunAppend(s, Repeat(Tab, n), [Tab], env);
      assert Repeat(Tab, n) + [Tab] == Repeat(Tab, n + 1);
      TabKeepsQuery(at, env);
      Navigation.TabSplit(None, n, n, 1);
    }
  }
}

=== FILE: wrappers.dfy ===
/** The failure-carrying values the prompt passes around: an optional value,
    a value-or-error result, and a pass-or-reject verdict. */
module Wrappers {

  /** A value that may be absent (Rust's `Option`). */
  datatype Option<+T> = None | Some(value: T)

  /** A value or an error (Rust's `Result`). */
  datatype Result<+R, +E> = Success(value: R) | Failure(error: E)

  /** A verdict that carries a reason only when it rejects (`Result<(), E>`). */
  datatype Outcome<+E> = Pass | Fail(error: E)
}
